=== FILE: README.md ===
# Scroll-driven page effects of a finance report page, in Dafny

The page's script (`script.js`) reacts to scrolling and to elements entering the viewport.
This project models the parts of it that are rules rather than wiring:

- **Statistic counters** (`animateStats`, `animateNumber`): the target of a counter is the first
  maximal run of decimal digits in the element's text, read in base 10. A 16 ms interval adds a
  fixed increment to an accumulator, clamps it to the target once it gets there and stops. After
  every tick the text captured before the first tick is rewritten with the floor of the
  accumulator in place of that digit run (modules `DigitRun`, `Counter`, `Stats`).
- **Navigation highlight** (`updateActiveNav`): every section containing the scroll offset plus
  150 px clears all navigation items' `active` flags. It then sets the flag on the items linking
  to `#id`, so the last containing section wins (module `Navigation`).
- **One-shot reveal observers** (cards, timeline items, section headers, org-chart nodes,
  progress bars, statistics): each applies its effect on an element's first intersecting entry
  and unobserves the element. Cards and org nodes are shown by a staggered `setTimeout`.
  Progress bars collapse to width 0 and get their width back 100 ms later (modules
  `Observation`, `Reveal`, `Progress`, `Stats`).
- **Scroll thresholds**: the back-to-top and print buttons are shown past 500 px, and the scroll
  indicator fades past 100 px (module `ScrollWidgets`).

The browser is replaced by explicit inputs:

- an element is its position in its group;
- an `IntersectionObserverEntry` is an `Entry(target, isIntersecting)`, delivered in batches;
- a scheduled `setTimeout` callback is a pending timer that the caller runs. Timers of one
  element run in the order they were scheduled. In the script a later timer for the same
  element never falls due earlier.
- `animateNumber` uses exact `real` arithmetic, and one loop iteration is one tick.
- Inline styles are opaque tokens (`Look`, `Entrance`, `Display`, `Indicator`, width strings).
  The collapsed bar width `Progress.Zero` stands for zero width: a browser reads it back as
  "0px", not as the "0" the script wrote.

Each observer is a class whose methods are specified by a function on a value (`Board`,
`Bars`, `Counters`), and the lemmas state the properties of those functions. The navigation
flags are an array updated in place by `Navigation.UpdateActiveNav`, and the tick loop of
`animateNumber` is a method over local variables.

Behaviour of the script worth knowing, which the model keeps:

- **Card stagger.** The card stagger is `index * 100` ms, where `index` is the entry's position
  in the delivered batch (non-intersecting entries count too). It is not the card's registration
  index. The org-node stagger does use the registration index.
- **Counters that count down.** For a counter whose target is below its start, the script
  reaches the target on the first tick whenever the duration is at least one tick
  (`Counter.FirstTickOvershoots`).
- **Where the target comes from.** The counter's target is always read from the element's own
  text. A leading zero is dropped in the frames ("007" animates to "7").
- **Org-node hidden style.** Org nodes receive their hidden style from a zero-delay timer, not
  synchronously at registration.
- **Repeated entries in one batch.** A batch may report the same element intersecting twice.
  - For cards and org nodes, one timer is scheduled per such entry (`Reveal.TimersPerHit`).
  - For statistics, the outcome is the same as for one entry (`Stats.BatchOutcome`).
  - For a progress bar, the second entry saves the collapsed width, so the bar stays at "0"
    (`Progress.TwiceReportedBarStaysCollapsed`). The restoring guarantee is therefore stated for
    batches that report each bar at most once.

## Model

| member | source | states |
|---|---|---|
| `DigitRun.FirstRun` | script.js:85-86 | the match of `/\d+/`: None exactly when the text has no ASCII digit, otherwise the leftmost run of digits, extended as far as it goes |
| `DigitRun.FirstRunUnique` | script.js:85 | any leftmost maximal digit run is the one `FirstRun` finds |
| `DigitRun.CounterTarget` | script.js:84-86 | a counter has a target exactly when its text contains a digit |
| `DigitRun.ParseDecimal` | script.js:86 | `parseInt` of a digit run: its base-10 value, leading zeros allowed, below 10^k for k digits |
| `DigitRun.ShowDecimal` | script.js:112 | the decimal written for `Math.floor(current)` is a non-empty string of digits without a leading zero |
| `DigitRun.ParseShow` | script.js:112 | reading back the decimal written for n gives n |
| `DigitRun.ShowParse` | script.js:86 | a canonical numeral is written back unchanged from its value, so the two conversions are inverse |
| `DigitRun.Render` | script.js:112 | `replace(/\d+/, n)`: a frame changes only the first digit run, into the decimal of n; the characters before and after it are the captured text's, and text without digits is left as it is |
| `DigitRun.RenderReadsBack` | script.js:112 | in a frame the first digit run is exactly the decimal spliced in, and the frame's counter target is that number |
| `DigitRun.RenderOverwrites` | script.js:102-112 | rendering from an earlier frame gives the same text as rendering from the captured text, so frames do not accumulate |
| `Counter.IncrementSpansRange` | script.js:99-100 | `Increment` is `range / (duration / 16)`: `duration / 16` increments cover the range exactly, and the increment has the sign of the range |
| `Counter.DisplayedIsFloor` | script.js:112 | `Displayed`, the value written after tick k, is `Math.floor` of the accumulator: at most it and within 1 of it |
| `Counter.Crossing` | script.js:99-108 | climbing, the accumulator reaches the target at tick k exactly when k is at least the tick count `ceil(duration / 16)` |
| `Counter.FirstTickOvershoots` | script.js:99-108 | counting down with a duration of at least one tick, the first increment already reaches the target |
| `Counter.AccumulatedGrows` | script.js:100-105 | with start at most end, the accumulator never decreases and never drops below start |
| `Counter.Tick` | script.js:104-109 | tick k + 1 reaches the target exactly when it is the last tick |
| `Counter.AnimateNumber` | script.js:98-114 | one frame per tick, each the captured text with the shown value spliced in; the values never decrease, stay within `[start, end]`, and end exactly at the target after `TickCount` ticks, which is one tick when end equals start |
| `Navigation.Anchor` | script.js:47 | the href a section's nav item must have: `#` followed by the id, so every anchor starts with `#` (`#null` when the id is missing) |
| `Navigation.Contains` | script.js:44 | the probe lies in `[top, top + height)`; only a section of positive height can contain it |
| `Navigation.LastContaining` | script.js:39-44 | the last section in document order whose `[top, top+height)` contains the probe, or None exactly when none does |
| `Navigation.ActiveAfter` | script.js:39-51 | the flags after one call: as many as there are items, set exactly on the links to the last containing section, or unchanged when none contains the probe |
| `Navigation.NoSectionKeepsFlags` | script.js:39-52 | if no section contains `scrollY + 150`, the active flags are unchanged |
| `Navigation.LastSectionWins` | script.js:39-51 | if section i contains the probe and no later one does, afterwards exactly the items whose href is `#` + its id (`#null` without id) are active, possibly none |
| `Navigation.ActiveAfterStep` | script.js:39-51 | visiting one more section either leaves the flags or resets them to that section's anchor |
| `Navigation.UpdateActiveNav` | script.js:35-53 | the nested loops leave the `active` array equal to the last-containing-section rule applied to the old flags |
| `Observation.HitsTriggered` | script.js:123-124 | an element is triggered by a batch exactly when some intersecting entry of the batch names it |
| `Reveal.Delay` | script.js:128 | the stagger: a card waits 100 ms times its entry's position in the batch; an org node waits 150 ms times its registration index (script.js:430); other groups wait 0 |
| `Reveal.InitialLook` | script.js:189-198 | the hidden style registration gives: never shown; timeline items start from the left exactly at even positions; org nodes keep their authored style until their timer hides them |
| `Reveal.Registered` | script.js:138-143 | registration of any group (cards here; timeline items 189-198, headers 280-291, org nodes 417-422): every element observed and not shown, icons exactly on headers holding one, and for org nodes one zero-delay hiding timer per node and no timers otherwise |
| `Reveal.React` | script.js:263-277 | one entry: a non-intersecting one changes nothing; an intersecting one unobserves its element and shows it (timeline items, headers, turning a header's icon) or appends a timer with the group's stagger (cards, org nodes) |
| `Reveal.AfterBatch` | script.js:179-187 | the callback's `forEach` over a batch, entry by entry with each entry's position; the result stays well formed |
| `Reveal.Fire` | script.js:125-128 | a timer callback: applies its look to its element and leaves the queue; observation and icons are untouched |
| `Reveal.RegisteredValid` | script.js:135-143 | registration observes every element, shows none, and establishes the reveal invariant |
| `Reveal.ReactValid` | script.js:122-131 | one entry keeps the reveal invariant |
| `Reveal.AfterBatchValid` | script.js:263-278 | a whole batch keeps the reveal invariant: observed elements are not shown and have no timer that would show them, triggered ones are or will be shown, and a header's icon turns exactly when the header is triggered |
| `Reveal.FireValid` | script.js:125-128 | running an element's first pending timer keeps the reveal invariant |
| `Reveal.BatchUnobserves` | script.js:179-187 | after a batch, the observed set is the old one minus exactly the targets of intersecting entries |
| `Reveal.ImmediateReveal` | script.js:263-278 | timeline items and headers are shown in the callback itself exactly when triggered, no timer is added, and a triggered header's icon turns |
| `Reveal.DeferredReveal` | script.js:122-131 | cards and org nodes keep their looks; the batch appends one timer per intersecting entry and no others, with delay `position * 100` for cards and `index * 150` for org nodes |
| `Reveal.TimersPerHit` | script.js:424-433 | the timers a batch schedules for an element number exactly its intersecting entries in that batch |
| `Reveal.BatchFrame` | script.js:179-186 | a batch that does not trigger an element leaves its look, icon and timers alone |
| `Reveal.OnceOnly` | script.js:122-131 | on any board where an element is no longer observed, any batch the browser can deliver leaves its look, icon and pending timers alone and it stays unobserved; with `Fire` keeping the observed set, this holds after any mix of later batches and timers |
| `Reveal.SettledShown` | script.js:424-432 | a triggered element with no pending timer is shown |
| `Reveal.RevealObserver.constructor` | script.js:189-198 | the registration loop yields `Registered`: hidden looks (timeline items alternating left and right), headers' icons, everything observed, and for org nodes a zero-delay hiding timer each |
| `Reveal.RevealObserver.Deliver` | script.js:122-132 | the callback's loop over a batch yields `AfterBatch` and keeps the invariant |
| `Reveal.RevealObserver.RunTimer` | script.js:418-430 | any pending timer of the group runs: an org node's zero-delay hiding timer (418-422) or show timer (427-430), or a card's show timer (script.js:125-128); it applies its look to its element and leaves the queue, and the invariant is kept |
| `Progress.Registered` | script.js:174 | all bars observed, widths as authored |
| `Progress.React` | script.js:162-170 | one entry: an intersecting one saves the bar's width in a new 100 ms timer, collapses it to "0" and unobserves it; otherwise nothing changes |
| `Progress.AfterBatch` | script.js:160-172 | the callback's `forEach` over a batch, entry by entry; the result stays well formed |
| `Progress.Fire` | script.js:166-168 | a restoring timer puts its saved width on its bar and leaves the queue |
| `Progress.RegisteredRestorable` | script.js:174 | registration observes every bar, leaves widths as authored and satisfies the restoring invariant |
| `Progress.BatchUnobserves` | script.js:160-171 | after a batch, the observed bars are the old ones minus exactly the triggered ones |
| `Progress.ReactRestorable` | script.js:162-169 | an entry for a bar that is still observed keeps the restoring invariant |
| `Progress.AfterBatchRestorable` | script.js:160-172 | a deliverable batch reporting each bar at most once keeps the invariant: a bar is "0" exactly while its single restoring timer, which carries the authored width and the 100 ms delay, is pending |
| `Progress.FireRestorable` | script.js:166-168 | running a restoring timer keeps the invariant |
| `Progress.WidthRestored` | script.js:164-168 | with no timer pending, a bar's width is the one it had just before its trigger; it is "0" only while its timer is pending |
| `Progress.TwiceReportedBarStaysCollapsed` | script.js:161-169 | for any bars and any bar, a batch reporting it intersecting twice appends a timer restoring its width and then one restoring "0"; once both run in order the bar is "0" |
| `Progress.BatchFrame` | script.js:160-171 | a batch that does not trigger a bar leaves its width alone, keeps every pending timer as a prefix, and appends none for that bar |
| `Progress.OnceOnly` | script.js:160-171 | once a bar is no longer observed, any batch the browser can deliver leaves its width alone, keeps every pending timer as a prefix, appends none for that bar, and it stays unobserved |
| `Progress.ProgressObserver.constructor` | script.js:174 | the bars start as authored, all observed, nothing pending |
| `Progress.ProgressObserver.Deliver` | script.js:160-172 | the callback yields `AfterBatch` and keeps the restoring invariant for deliverable batches with one report per bar |
| `Progress.ProgressObserver.RunTimer` | script.js:166-168 | a restoring timer puts its saved width back and keeps the invariant |
| `Stats.Settled` | script.js:85-87 | the text a triggered statistic ends with: its own text with the first digit run written as the number it reads; it reads back as the same counter target |
| `Stats.React` | script.js:80-91 | one entry: an intersecting one settles its statistic's text and unobserves it, digits or not; otherwise nothing changes |
| `Stats.AfterBatch` | script.js:78-93 | the callback's `forEach` over a batch, entry by entry; the result stays well formed |
| `Stats.SettledIsStable` | script.js:102-112 | settling a settled text again changes nothing, so an animation run twice ends where one ends |
| `Stats.BatchOutcome` | script.js:78-92 | after a batch, a statistic shows its settled text exactly when triggered, however often reported, and keeps its text otherwise; every triggered statistic is unobserved, digits or not |
| `Stats.OnceOnly` | script.js:90 | scrolling back never restarts a counter: once a statistic is unobserved, no batch the browser can deliver changes its text, and it stays unobserved |
| `Stats.StatTicks` | script.js:87 | animateStats' own call, from 0 to a positive target over 1500 ms, takes 94 ticks |
| `Stats.StatsObserver.constructor` | script.js:95 | every statistic starts observed |
| `Stats.StatsObserver.Deliver` | script.js:78-93 | the callback, running `AnimateNumber` from 0 over 1500 ms for each triggered statistic with digits, yields `AfterBatch` |
| `ScrollWidgets.ButtonDisplay` | script.js:336 | both buttons' display (back-to-top 336, print 391) is flex exactly when `scrollY > 500`, none otherwise |
| `ScrollWidgets.IndicatorLook` | script.js:250 | the indicator is faded exactly when `scrollY > 100` and visible otherwise, never left untouched |
| `ScrollWidgets.Widgets.constructor` | script.js:298-316 | both buttons start with display none and the indicator untouched |
| `ScrollWidgets.Widgets.OnScrollBackToTop` | script.js:335-342 | the back-to-top button is displayed exactly when `scrollY > 500`, and then gets the fade-in |
| `ScrollWidgets.Widgets.OnScrollPrint` | script.js:390-396 | the print button is displayed exactly when `scrollY > 500` |
| `ScrollWidgets.Widgets.OnScrollIndicator` | script.js:249-257 | when the page has an indicator, it is faded and hidden exactly when `scrollY > 100`, otherwise visible |

## Left out

- Browser geometry: IntersectionObserver thresholds and `rootMargin` are not modelled. `isIntersecting` and the batches are inputs.
- Wall-clock time. `setTimeout` delays are recorded on the timers but not enforced, and the caller chooses when a timer runs. An animation's ticks run to completion inside the callback, so the interval is not interleaved with other events.
- Counter.AnimateNumber: uses exact rational arithmetic rather than IEEE doubles, so the tick count and the floors can differ from a browser's by rounding. It requires a positive duration, and a duration of at least 16 ms when counting down. Outside these inputs the script's increment is infinite or NaN (zero duration) or has the wrong sign (negative duration), which exact reals cannot express. Some of the excluded inputs still stop on the first tick: a zero duration while climbing, and a negative duration when start is at least end. Others never stop: a zero duration when start is at least end (the increment is -Infinity or NaN), a negative duration while climbing, and counting down over less than 16 ms. The script's one call passes 1500 ms.
- DigitRun.ParseDecimal and DigitRun.ShowDecimal: use unbounded integers. `parseInt` loses precision above 2^53, and `String` switches to exponent notation from 10^21.
- Counter.AnimateNumber: takes a non-negative start, the only value the script passes (0). A negative start would put a minus sign into the frames.
- Progress.AfterBatchRestorable: the restoring guarantee is stated only for batches that report each bar at most once. `Progress.TwiceReportedBarStaysCollapsed` shows what happens otherwise.
- The per-node org-chart observers are modelled as one observer over all nodes. The callback uses the node's own index and only ever sees that node, so the outcome is the same.
- Section offsets (`offsetTop`, `offsetHeight`) are integers. `scrollY` is a real number.
- Not part of this model:
  - the quote-card and achievement-card observers (script.js:467-531);
  - the spinner animation on in-progress path items;
  - the hover, tilt, badge and touch effects;
  - the click pulse on project cards;
  - the mobile navigation toggle and smooth anchor scrolling;
  - `debounce`, whose point is cancelling timers;
  - the buttons' creation, their styles, hover and click actions (`scrollTo`, `print`);
  - the body fade-in, the background shapes and the injected keyframes;
  - the `.stat-item` load animation, the console banners and the `beforeprint` tweak.

=== FILE: counter.dfy ===
/** The tick loop of animateNumber (script.js): an accumulator that grows by a fixed
    increment on every 16 ms tick, is clamped to the target when it reaches it, and after
    every tick rewrites the element's text from the text captured before the first tick.
    Time is not modelled: one loop iteration is one tick, and arithmetic is exact. */
module Counter {
  import opened DigitRun

  /** The setInterval period, in milliseconds. */
  const TickMs: real := 16.0

  /** `range / (duration / 16)`: how much the accumulator grows per tick. */
  function Increment(start: nat, end: nat, duration: real): real
    requires duration > 0.0
  {
    (end as real - start as real) / (duration / TickMs)
  }

  /** `duration / 16` increments cover the range exactly, and the increment has the sign of
      the range. */
  lemma IncrementSpansRange(start: nat, end: nat, duration: real)
    requires duration > 0.0
    ensures Increment(start, end, duration) * (duration / TickMs) == end as real - start as real
    ensures start <= end ==> Increment(start, end, duration) >= 0.0
    ensures start > end ==> Increment(start, end, duration) < 0.0
  {
  }

  /** The least integer not below x. */
  function Ceiling(x: real): (c: int)
    ensures x <= c as real < x + 1.0
  {
    if x.Floor as real == x then x.Floor else x.Floor + 1
  }

  /** How many ticks the loop runs: one when there is nothing to climb, otherwise the
      number of 16 ms periods needed to cover the duration. */
  function TickCount(start: nat, end: nat, duration: real): (k: nat)
    requires duration > 0.0
    ensures k >= 1
  {
    if start >= end then 1 else Ceiling(duration / TickMs)
  }

  /** The accumulator's value after k ticks, before any clamping. */
  function Accumulated(start: nat, end: nat, duration: real, k: nat): real
    requires duration > 0.0
  {
    start as real + k as real * Increment(start, end, duration)
  }

  /** `Math.floor` of the accumulator after k ticks: the number written into the frame of
      every tick that does not reach the target. */
  function Displayed(start: nat, end: nat, duration: real, k: nat): int
    requires duration > 0.0
  {
    Accumulated(start, end, duration, k).Floor
  }

  /** The value shown after tick k is `Math.floor` of the accumulator: the greatest integer
      not above it. */
  lemma DisplayedIsFloor(start: nat, end: nat, duration: real, k: nat)
    requires duration > 0.0
    ensures Displayed(start, end, duration, k) as real <= Accumulated(start, end, duration, k)
    ensures Accumulated(start, end, duration, k) < Displayed(start, end, duration, k) as real + 1.0
  {
  }

  /** One tick adds one increment. */
  lemma AccumulatedStep(start: nat, end: nat, duration: real, k: nat)
    requires duration > 0.0
    ensures Accumulated(start, end, duration, k + 1)
      == Accumulated(start, end, duration, k) + Increment(start, end, duration)
  {
  }

  /** While climbing, the accumulator never goes down from one tick to the next. */
  lemma AccumulatedGrows(start: nat, end: nat, duration: real, k: nat)
    requires duration > 0.0 && start <= end
    ensures start as real <= Accumulated(start, end, duration, k) <= Accumulated(start, end, duration, k + 1)
  {
    assert Increment(start, end, duration) >= 0.0;
  }

  /** Climbing from start to end, the accumulator reaches the target at tick k exactly when
      k is at least TickCount: it stays below the target on every earlier tick. */
  lemma Crossing(start: nat, end: nat, duration: real, k: nat)
    requires duration > 0.0 && start < end
    ensures Accumulated(start, end, duration, k) >= end as real <==> k >= TickCount(start, end, duration)
  {
    var d := end as real - start as real;
    var q := duration / TickMs;
    var inc := Increment(start, end, duration);
    assert inc * q == d;
    assert k as real * inc >= d <==> k as real * inc * q >= d * q;
    assert k as real * inc * q == k as real * d;
    assert k as real * d >= d * q <==> k as real >= q;
    var c := Ceiling(q);
    assert k as real >= q <==> k >= c;
  }

  /** Falling from start to end with a duration of at least one tick, the first increment
      already takes the accumulator to or past the target. */
  lemma FirstTickOvershoots(start: nat, end: nat, duration: real)
    requires start > end && duration >= TickMs
    ensures Accumulated(start, end, duration, 1) >= end as real
  {
    var d := end as real - start as real;
    var q := duration / TickMs;
    assert q >= 1.0;
    assert Increment(start, end, duration) * q == d;
  }

  /** What one tick does to the accumulator, tick k + 1 of TickCount: it reaches the target
      exactly on the last tick, and while climbing it never decreases and never drops below
      the start. */
  lemma Tick(start: nat, end: nat, duration: real, k: nat)
    requires duration > 0.0
    requires start <= end || duration >= TickMs
    requires k < TickCount(start, end, duration)
    ensures Accumulated(start, end, duration, k + 1) >= end as real <==> k + 1 == TickCount(start, end, duration)
    ensures start <= end ==>
      start as real <= Accumulated(start, end, duration, k) <= Accumulated(start, end, duration, k + 1)
  {
    if start < end {
      Crossing(start, end, duration, k + 1);
    } else if start > end {
      FirstTickOvershoots(start, end, duration);
    }
    if start <= end {
      AccumulatedGrows(start, end, duration, k);
    }
  }

  /** animateNumber(element, start, end, duration), with the element's text captured in
      `original`. `frames` are the texts written on successive ticks and `shown` the values
      `Math.floor(current)` spliced into them; the element ends with the last frame. */
  method AnimateNumber(original: string, start: nat, end: nat, duration: real)
    returns (frames: seq<string>, shown: seq<nat>)
    requires duration > 0.0
    requires start <= end || duration >= TickMs
    ensures |frames| == |shown| == TickCount(start, end, duration)
    ensures forall i :: 0 <= i < |frames| ==> frames[i] == Render(original, shown[i])
    ensures shown[|shown| - 1] == end
    ensures start <= end ==> forall i :: 0 <= i < |shown| ==> start <= shown[i] <= end
    ensures forall i, j :: 0 <= i <= j < |shown| ==> shown[i] <= shown[j]
    ensures forall i :: 0 <= i < |shown| - 1 ==> shown[i] == Displayed(start, end, duration, i + 1)
  {
    var increment := Increment(start, end, duration);
    var current := start as real;
    var running := true;
    frames, shown := [], [];
    ghost var total := TickCount(start, end, duration);
    while running
      invariant |frames| == |shown| <= total
      invariant running <==> |shown| < total
      invariant running ==> current == Accumulated(start, end, duration, |shown|)
      invariant !running ==> shown[|shown| - 1] == end
      invariant forall i :: 0 <= i < |frames| ==> frames[i] == Render(original, shown[i])
      invariant start <= end ==> forall i :: 0 <= i < |shown| ==> start <= shown[i] <= end
      invariant forall i, j :: 0 <= i <= j < |shown| ==> shown[i] <= shown[j]
      invariant running && |shown| > 0 ==> shown[|shown| - 1] == current.Floor
      invariant forall i :: 0 <= i < |shown| - 1 ==> shown[i] == Displayed(start, end, duration, i + 1)
      invariant running && |shown| > 0 ==> start <= end && current < end as real
      decreases total - |shown|
    {
      AccumulatedStep(start, end, duration, |shown|);
      Tick(start, end, duration, |shown|);
      current := current + increment;
      if current >= end as real {
        current := end as real;
        running := false;
      }
      assert running ==> current.Floor == Displayed(start, end, duration, |shown| + 1);
      var v: nat := current.Floor;
      frames := frames + [Render(original, v)];
      shown := shown + [v];
    }
  }
}

=== FILE: digit_run.dfy ===
/** The text side of the statistic counters (script.js, animateStats and animateNumber):
    finding the first run of decimal digits in an element's text, reading it as a number,
    writing a number in decimal, and splicing that decimal into the captured text. */
module DigitRun {
  import opened Wrappers

  /** `\d` in a JavaScript regular expression without the `u` flag: the ASCII digits only. */
  predicate IsDigit(c: char) {
    '0' <= c <= '9'
  }

  predicate AllDigits(s: string) {
    forall i :: 0 <= i < |s| ==> IsDigit(s[i])
  }

  /** A decimal numeral as `String(n)` writes a non-negative integer: at least one digit,
      and no leading zero unless the numeral is "0" itself. */
  predicate Canonical(s: string) {
    |s| > 0 && AllDigits(s) && (|s| > 1 ==> s[0] != '0')
  }

  /** The half-open index range [start, end) of a run of digits. */
  datatype Span = Span(start: nat, end: nat)

  /** sp is what `/\d+/` matches in s: the leftmost run of digits, taken as long as it goes. */
  ghost predicate IsFirstRun(s: string, sp: Span) {
    && sp.start < sp.end <= |s|
    && (forall i :: 0 <= i < sp.start ==> !IsDigit(s[i]))
    && (forall i :: sp.start <= i < sp.end ==> IsDigit(s[i]))
    && (sp.end == |s| || !IsDigit(s[sp.end]))
  }

  /** The first index at or after i that holds a digit, or |s| when there is none. */
  function NextDigit(s: string, i: nat): (r: nat)
    requires i <= |s|
    ensures i <= r <= |s|
    ensures forall k :: i <= k < r ==> !IsDigit(s[k])
    ensures r < |s| ==> IsDigit(s[r])
    decreases |s| - i
  {
    if i == |s| || IsDigit(s[i]) then i else NextDigit(s, i + 1)
  }

  /** The first index at or after i that does not hold a digit, or |s| when there is none. */
  function NextNonDigit(s: string, i: nat): (r: nat)
    requires i <= |s|
    ensures i <= r <= |s|
    ensures forall k :: i <= k < r ==> IsDigit(s[k])
    ensures r < |s| ==> !IsDigit(s[r])
    decreases |s| - i
  {
    if i == |s| || !IsDigit(s[i]) then i else NextNonDigit(s, i + 1)
  }

  /** `s.match(/\d+/)`: the span of the first maximal run of digits, or None (JavaScript's
      null) when s holds no digit. */
  function FirstRun(s: string): (r: Option<Span>)
    ensures r.None? <==> forall i :: 0 <= i < |s| ==> !IsDigit(s[i])
    ensures r.Some? ==> IsFirstRun(s, r.value)
  {
    var b := NextDigit(s, 0);
    if b == |s| then None else Some(Span(b, NextNonDigit(s, b)))
  }

  /** The match is unique: any span with the leftmost-maximal property is the one FirstRun finds. */
  lemma FirstRunUnique(s: string, sp: Span)
    requires IsFirstRun(s, sp)
    ensures FirstRun(s) == Some(sp)
  {
    var b := NextDigit(s, 0);
    assert IsDigit(s[sp.start]);
    assert b < |s| ==> IsDigit(s[b]);
    assert b == sp.start;
    var e := NextNonDigit(s, b);
    assert sp.end < |s| ==> !IsDigit(s[sp.end]);
    assert e < |s| ==> !IsDigit(s[e]);
  }

  function DigitValue(c: char): (d: nat)
    requires IsDigit(c)
    ensures d < 10
  {
    c as int - '0' as int
  }

  function DigitChar(d: nat): (c: char)
    requires d < 10
    ensures IsDigit(c) && DigitValue(c) == d
  {
    ('0' as int + d) as char
  }

  /** 10 to the power k. */
  function Pow10(k: nat): (r: nat)
    ensures r >= 1
  {
    if k == 0 then 1 else 10 * Pow10(k - 1)
  }

  /** `parseInt(ds)` for a string of digits: the base-10 value, leading zeros allowed. A
      numeral of k digits stays below 10^k. */
  function ParseDecimal(ds: string): (r: nat)
    requires AllDigits(ds)
    ensures r < Pow10(|ds|)
  {
    if ds == [] then 0 else 10 * ParseDecimal(ds[..|ds| - 1]) + DigitValue(ds[|ds| - 1])
  }

  /** `String(n)` for a non-negative integer. */
  function ShowDecimal(n: nat): (r: string)
    ensures Canonical(r)
  {
    if n < 10 then [DigitChar(n)] else ShowDecimal(n / 10) + [DigitChar(n % 10)]
  }

  /** Reading back the decimal of n gives n. */
  lemma {:induction false} ParseShow(n: nat)
    ensures ParseDecimal(ShowDecimal(n)) == n
  {
    if n >= 10 {
      var r := ShowDecimal(n);
      assert r[..|r| - 1] == ShowDecimal(n / 10);
      ParseShow(n / 10);
    }
  }

  lemma {:induction false} ParseLeadingNonZero(ds: string)
    requires |ds| > 0 && AllDigits(ds) && ds[0] != '0'
    ensures ParseDecimal(ds) >= 1
  {
    if |ds| > 1 {
      ParseLeadingNonZero(ds[..|ds| - 1]);
    }
  }

  /** Writing back the value of a canonical numeral gives the numeral; with ParseShow, the
      two conversions are inverse on canonical numerals. */
  lemma {:induction false} ShowParse(ds: string)
    requires Canonical(ds)
    ensures ShowDecimal(ParseDecimal(ds)) == ds
  {
    if |ds| > 1 {
      var p := ds[..|ds| - 1];
      ParseLeadingNonZero(p);
      ShowParse(p);
      var n := ParseDecimal(ds);
      assert n / 10 == ParseDecimal(p) && n % 10 == DigitValue(ds[|ds| - 1]);
      assert DigitChar(n % 10) == ds[|ds| - 1];
      assert p + [ds[|ds| - 1]] == ds;
    }
  }

  /** The number a counter animates to: `parseInt(text.match(/\d+/)[0])`, or None when
      `text.match(/\d+/)` is null. */
  function CounterTarget(text: string): (r: Option<nat>)
    ensures r.None? <==> forall i :: 0 <= i < |text| ==> !IsDigit(text[i])
  {
    match FirstRun(text)
    case None => None
    case Some(sp) => Some(ParseDecimal(text[sp.start..sp.end]))
  }

  /** `template.replace(/\d+/, n)`: only the first run of digits changes, into the decimal
      of n; what precedes it and what follows it are kept character for character, and a
      template without digits comes back unchanged. */
  function Render(template: string, n: nat): (r: string)
    ensures FirstRun(template).None? ==> r == template
    ensures FirstRun(template).Some? ==>
      var sp := FirstRun(template).value;
      && |r| == sp.start + |ShowDecimal(n)| + (|template| - sp.end)
      && r[..sp.start] == template[..sp.start]
      && r[sp.start..sp.start + |ShowDecimal(n)|] == ShowDecimal(n)
      && r[sp.start + |ShowDecimal(n)|..] == template[sp.end..]
  {
    match FirstRun(template)
    case None => template
    case Some(sp) => template[..sp.start] + ShowDecimal(n) + template[sp.end..]
  }

  /** In a rendered frame the first run of digits is exactly the decimal spliced in, so
      reading the counter target back out of the frame yields n. */
  lemma RenderReadsBack(template: string, n: nat)
    requires FirstRun(template).Some?
    ensures FirstRun(Render(template, n))
      == Some(Span(FirstRun(template).value.start, FirstRun(template).value.start + |ShowDecimal(n)|))
    ensures CounterTarget(Render(template, n)) == Some(n)
  {
    var sp := FirstRun(template).value;
    var d := ShowDecimal(n);
    var r := Render(template, n);
    var sp' := Span(sp.start, sp.start + |d|);
    forall i | 0 <= i < sp.start ensures !IsDigit(r[i]) {
      assert r[i] == r[..sp.start][i];
    }
    forall i | sp.start <= i < sp'.end ensures IsDigit(r[i]) {
      assert r[i] == r[sp.start..sp'.end][i - sp.start];
    }
    if sp'.end < |r| {
      assert r[sp'.end] == r[sp'.end..][0] == template[sp.end..][0];
    }
    FirstRunUnique(r, sp');
    ParseShow(n);
  }

  /** Rendering a frame from a previous frame gives the same text as rendering it from the
      captured template: the frames do not accumulate. */
  lemma RenderOverwrites(template: string, a: nat, b: nat)
    ensures Render(Render(template, a), b) == Render(template, b)
  {
    if FirstRun(template).Some? {
      var sp := FirstRun(template).value;
      var r := Render(template, a);
      RenderReadsBack(template, a);
      assert r[..sp.start] == template[..sp.start];
      assert r[sp.start + |ShowDecimal(a)|..] == template[sp.end..];
    }
  }
}

=== FILE: navigation.dfy ===
/** The side-navigation highlight (script.js, updateActiveNav): on every scroll, each section
    whose vertical extent contains the scroll position plus 150 px clears the `active` flag of
    every navigation item and sets it again on the items that link to that section. */
module Navigation {
  import opened Wrappers

  /** How far below the top of the viewport the position that picks the section lies. */
  const ProbeOffset: real := 150.0

  /** A `.section` or `.hero-section` element: offsetTop, offsetHeight and its id attribute,
      which may be missing. */
  datatype Section = Section(top: int, height: int, id: Option<string>)

  /** The href a navigation item must carry to belong to a section: the template literal
      `#${id}`, which writes a missing id (null) as "null". */
  function Anchor(id: Option<string>): (r: string)
    ensures |r| >= 1 && r[0] == '#'
    ensures id.Some? ==> r[1..] == id.value
  {
    "#" + match id case Some(s) => s case None => "null"
  }

  /** `scrollPos >= top && scrollPos < top + height`. */
  predicate Contains(s: Section, pos: real): (r: bool)
    ensures r ==> s.height > 0
  {
    s.top as real <= pos < (s.top + s.height) as real
  }

  /** The index of the last section, in document order, that contains pos. */
  function LastContaining(sections: seq<Section>, pos: real): (r: Option<nat>)
    ensures r.None? <==> forall i :: 0 <= i < |sections| ==> !Contains(sections[i], pos)
    ensures r.Some? ==> r.value < |sections| && Contains(sections[r.value], pos)
    ensures r.Some? ==> forall j :: r.value < j < |sections| ==> !Contains(sections[j], pos)
    decreases |sections|
  {
    if sections == [] then None
    else if Contains(sections[|sections| - 1], pos) then Some(|sections| - 1)
    else LastContaining(sections[..|sections| - 1], pos)
  }

  /** The `active` flags of the navigation items after one call of updateActiveNav: set exactly
      on the items linking to the last section that contains the probe, or left as they were
      when no section contains it. */
  function ActiveAfter(active: seq<bool>, hrefs: seq<string>, sections: seq<Section>, scrollY: real): (r: seq<bool>)
    requires |active| == |hrefs|
    ensures |r| == |active|
  {
    match LastContaining(sections, scrollY + ProbeOffset)
    case None => active
    case Some(i) => seq(|hrefs|, k requires 0 <= k < |hrefs| => hrefs[k] == Anchor(sections[i].id))
  }

  /** When no section contains the probe, nothing changes. */
  lemma NoSectionKeepsFlags(active: seq<bool>, hrefs: seq<string>, sections: seq<Section>, scrollY: real)
    requires |active| == |hrefs|
    requires forall i :: 0 <= i < |sections| ==> !Contains(sections[i], scrollY + ProbeOffset)
    ensures ActiveAfter(active, hrefs, sections, scrollY) == active
  {
  }

  /** When section i contains the probe and no later section does, afterwards an item is active
      exactly when its href is that section's anchor, whatever the flags were before: the last
      containing section wins, and if no item links to it, none is active. */
  lemma LastSectionWins(active: seq<bool>, hrefs: seq<string>, sections: seq<Section>, scrollY: real, i: nat)
    requires |active| == |hrefs|
    requires i < |sections| && Contains(sections[i], scrollY + ProbeOffset)
    requires forall j :: i < j < |sections| ==> !Contains(sections[j], scrollY + ProbeOffset)
    ensures |ActiveAfter(active, hrefs, sections, scrollY)| == |hrefs|
    ensures forall k :: 0 <= k < |hrefs| ==>
      (ActiveAfter(active, hrefs, sections, scrollY)[k] <==> hrefs[k] == Anchor(sections[i].id))
  {
    var r := LastContaining(sections, scrollY + ProbeOffset);
    assert r.Some? ==> r.value <= i && r.value >= i;
  }

  /** The flags after the sections sections[..n] have been visited and the next one is visited. */
  lemma {:induction false} ActiveAfterStep(active: seq<bool>, hrefs: seq<string>, sections: seq<Section>, scrollY: real, n: nat)
    requires |active| == |hrefs| && n < |sections|
    ensures ActiveAfter(active, hrefs, sections[..n + 1], scrollY)
      == if Contains(sections[n], scrollY + ProbeOffset)
         then seq(|hrefs|, k requires 0 <= k < |hrefs| => hrefs[k] == Anchor(sections[n].id))
         else ActiveAfter(active, hrefs, sections[..n], scrollY)
  {
    assert sections[..n + 1][..n] == sections[..n];
  }

  /** updateActiveNav, with the navigation items' hrefs and `active` class flags in document
      order. An item without an href attribute (getAttribute gives null) is written "": it
      never matches, since every anchor starts with '#'. */
  method UpdateActiveNav(sections: seq<Section>, scrollY: real, hrefs: seq<string>, active: array<bool>)
    requires active.Length == |hrefs|
    modifies active
    ensures active[..] == ActiveAfter(old(active[..]), hrefs, sections, scrollY)
  {
    var scrollPos := scrollY + ProbeOffset;
    for s := 0 to |sections|
      invariant active[..] == ActiveAfter(old(active[..]), hrefs, sections[..s], scrollY)
    {
      ActiveAfterStep(old(active[..]), hrefs, sections, scrollY, s);
      var section := sections[s];
      if scrollPos >= section.top as real && scrollPos < (section.top + section.height) as real {
        for k := 0 to active.Length
          invariant forall m :: 0 <= m < k ==> active[m] == (hrefs[m] == Anchor(section.id))
        {
          active[k] := false;
          if hrefs[k] == Anchor(section.id) {
            active[k] := true;
          }
        }
      }
    }
    assert sections[..|sections|] == sections;
  }
}

=== FILE: observation.dfy ===
/** What an IntersectionObserver callback receives (script.js, every observer): a batch of
    entries, each naming an observed element and saying whether it now intersects the
    viewport. Geometry (threshold, rootMargin) is not modelled: isIntersecting is an input. */
module Observation {

  /** One IntersectionObserverEntry: the element, by its position in its group (the order
      in which querySelectorAll returned it), and isIntersecting. */
  datatype Entry = Entry(target: nat, isIntersecting: bool)

  /** The positions 0 .. n-1 of a group of n elements: what an observer observes right
      after registration. */
  function Upto(n: nat): (r: set<nat>)
    ensures forall t: int :: t in r <==> 0 <= t < n
  {
    if n == 0 then {} else Upto(n - 1) + {n - 1}
  }

  /** Every entry names one of the group's n elements. */
  predicate Targets(entries: seq<Entry>, n: nat)
  {
    forall i :: 0 <= i < |entries| ==> entries[i].target < n
  }

  /** The browser's side of the contract: a batch reports only elements that were being
      observed when it was queued. */
  predicate Reports(entries: seq<Entry>, observed: set<nat>)
  {
    forall i :: 0 <= i < |entries| ==> entries[i].target in observed
  }

  /** The elements a batch triggers: the targets of its intersecting entries. */
  function Triggered(entries: seq<Entry>): set<nat>
  {
    set i | 0 <= i < |entries| && entries[i].isIntersecting :: entries[i].target
  }

  /** How many intersecting entries of the batch name t. */
  function Hits(entries: seq<Entry>, t: nat): nat
    decreases |entries|
  {
    if entries == [] then 0
    else
      var e := entries[|entries| - 1];
      Hits(entries[..|entries| - 1], t) + if e.isIntersecting && e.target == t then 1 else 0
  }

  /** Triggered grows one entry at a time. */
  lemma TriggeredStep(entries: seq<Entry>, n: nat)
    requires n < |entries|
    ensures Triggered(entries[..n + 1])
      == Triggered(entries[..n]) + if entries[n].isIntersecting then {entries[n].target} else {}
  {
    var p, q := entries[..n], entries[..n + 1];
    forall t | t in Triggered(q) ensures t in Triggered(p) + if entries[n].isIntersecting then {entries[n].target} else {} {
      var i :| 0 <= i < |q| && q[i].isIntersecting && q[i].target == t;
      if i < n {
        assert p[i] == q[i];
      }
    }
    forall t | t in Triggered(p) ensures t in Triggered(q) {
      var i :| 0 <= i < |p| && p[i].isIntersecting && p[i].target == t;
      assert q[i] == p[i];
    }
  }

  /** An element is triggered by a batch exactly when the batch holds an intersecting entry
      for it. */
  lemma {:induction false} HitsTriggered(entries: seq<Entry>, t: nat)
    ensures Hits(entries, t) > 0 <==> t in Triggered(entries)
    decreases |entries|
  {
    if entries != [] {
      var n := |entries| - 1;
      HitsTriggered(entries[..n], t);
      TriggeredStep(entries, n);
      assert entries[..n + 1] == entries;
    }
  }
}

=== FILE: progress.dfy ===
/** The progress-bar observer (script.js, progressObserver): on the first intersecting entry
    for a bar it saves the bar's inline width, sets the width to "0", schedules a setTimeout
    that puts the saved width back after 100 ms, and unobserves the bar. Registration only
    observes the bars; widths are opaque CSS strings. */
module Progress {
  import opened Observation

  /** The width a triggered bar is collapsed to. It stands for zero width: a browser reads
      the inline width back as "0px", and the model does not distinguish the two spellings. */
  const Zero: string := "0"

  /** The delay of every restoring timer, in milliseconds. */
  const RestoreDelayMs: nat := 100

  /** A pending `bar.style.width = width` callback, scheduled with its delay in milliseconds. */
  datatype Restore = Restore(target: nat, delay: nat, width: string)

  /** The bars as a value: each bar's inline width, the bars still observed, the pending
      restoring timers in scheduling order. */
  datatype Bars = Bars(widths: seq<string>, observed: set<nat>, timers: seq<Restore>)

  predicate WellFormed(b: Bars)
  {
    && (forall t :: t in b.observed ==> t < |b.widths|)
    && (forall j :: 0 <= j < |b.timers| ==> b.timers[j].target < |b.widths|)
  }

  /** The bars right after registration: widths as authored, all observed, nothing pending. */
  function Registered(authored: seq<string>): (r: Bars)
    ensures WellFormed(r)
    ensures forall t: int :: t in r.observed <==> 0 <= t < |authored|
  {
    Bars(authored, Upto(|authored|), [])
  }

  /** What the callback does with one entry. */
  function React(b: Bars, e: Entry): (r: Bars)
    requires WellFormed(b) && e.target < |b.widths|
    ensures WellFormed(r) && |r.widths| == |b.widths|
  {
    if !e.isIntersecting then b
    else
      var t := e.target;
      Bars(b.widths[t := Zero], b.observed - {t}, b.timers + [Restore(t, RestoreDelayMs, b.widths[t])])
  }

  /** The bars after the callback has run over a whole batch, entry by entry. */
  function AfterBatch(b: Bars, entries: seq<Entry>): (r: Bars)
    requires WellFormed(b) && Targets(entries, |b.widths|)
    ensures WellFormed(r) && |r.widths| == |b.widths|
    decreases |entries|
  {
    if entries == [] then b
    else
      var n := |entries| - 1;
      React(AfterBatch(b, entries[..n]), entries[n])
  }

  /** The bars after pending timer i has run. */
  function Fire(b: Bars, i: nat): (r: Bars)
    requires WellFormed(b) && i < |b.timers|
    ensures WellFormed(r) && |r.widths| == |b.widths|
  {
    b.(widths := b.widths[b.timers[i].target := b.timers[i].width], timers := b.timers[..i] + b.timers[i + 1..])
  }

  predicate HasTimer(timers: seq<Restore>, t: nat)
  {
    exists j :: 0 <= j < |timers| && timers[j].target == t
  }

  /** The restoring invariant, against the widths the page authored: a bar is collapsed to
      "0" exactly while it has a pending timer, it has at most one, that timer carries the
      authored width and the 100 ms delay, and a bar with a timer is no longer observed. */
  ghost predicate Restorable(authored: seq<string>, b: Bars)
  {
    && WellFormed(b)
    && |b.widths| == |authored|
    && (forall j :: 0 <= j < |b.timers| ==>
          && b.timers[j].width == authored[b.timers[j].target]
          && b.timers[j].delay == RestoreDelayMs
          && b.timers[j].target !in b.observed)
    && (forall j, k :: 0 <= j < k < |b.timers| ==> b.timers[j].target != b.timers[k].target)
    && (forall t :: 0 <= t < |b.widths| ==> b.widths[t] == if HasTimer(b.timers, t) then Zero else authored[t])
  }

  lemma RegisteredRestorable(authored: seq<string>)
    ensures Restorable(authored, Registered(authored))
    ensures Registered(authored).observed == Upto(|authored|)
  {
  }

  /** The callback unobserves every bar it triggers and keeps observing the others. */
  lemma {:induction false} BatchUnobserves(b: Bars, entries: seq<Entry>)
    requires WellFormed(b) && Targets(entries, |b.widths|)
    ensures AfterBatch(b, entries).observed == b.observed - Triggered(entries)
    decreases |entries|
  {
    if entries != [] {
      var n := |entries| - 1;
      BatchUnobserves(b, entries[..n]);
      TriggeredStep(entries, n);
      assert entries[..n + 1] == entries;
    }
  }

  /** An entry for a bar that is still observed keeps the invariant. */
  lemma ReactRestorable(authored: seq<string>, b: Bars, e: Entry)
    requires Restorable(authored, b) && e.target < |b.widths|
    requires e.isIntersecting ==> e.target in b.observed
    ensures Restorable(authored, React(b, e))
  {
    if e.isIntersecting {
      var t := e.target;
      var r := React(b, e);
      forall u | 0 <= u < |r.widths| ensures HasTimer(r.timers, u) <==> u == t || HasTimer(b.timers, u) {
        if HasTimer(b.timers, u) {
          var j :| 0 <= j < |b.timers| && b.timers[j].target == u;
          assert r.timers[j] == b.timers[j];
        }
        if HasTimer(r.timers, u) {
          var j :| 0 <= j < |r.timers| && r.timers[j].target == u;
          assert j < |b.timers| ==> r.timers[j] == b.timers[j];
        }
        assert r.timers[|b.timers|].target == t;
      }
    }
  }

  /** A batch that the browser can deliver (every entry names a bar observed when the batch
      began) and that reports each bar intersecting at most once keeps the invariant. */
  lemma {:induction false} AfterBatchRestorable(authored: seq<string>, b: Bars, entries: seq<Entry>)
    requires Restorable(authored, b) && Targets(entries, |b.widths|)
    requires Reports(entries, b.observed)
    requires forall t :: Hits(entries, t) <= 1
    ensures Restorable(authored, AfterBatch(b, entries))
    decreases |entries|
  {
    if entries != [] {
      var n := |entries| - 1;
      var e := entries[n];
      var p := AfterBatch(b, entries[..n]);
      forall t ensures Hits(entries[..n], t) <= 1 {
        assert Hits(entries, t) == Hits(entries[..n], t) + if e.isIntersecting && e.target == t then 1 else 0;
      }
      AfterBatchRestorable(authored, b, entries[..n]);
      if e.isIntersecting {
        assert Hits(entries, e.target) == Hits(entries[..n], e.target) + 1;
        BatchUnobserves(b, entries[..n]);
        HitsTriggered(entries[..n], e.target);
        assert e.target in p.observed;
      }
      ReactRestorable(authored, p, e);
    }
  }

  /** Removing timer i leaves a timer for every other bar that had one, and none for bar
      of timer i when that was its only one. */
  lemma HasTimerRemove(timers: seq<Restore>, i: nat, u: nat)
    requires i < |timers|
    requires forall j, k :: 0 <= j < k < |timers| ==> timers[j].target != timers[k].target
    ensures HasTimer(timers[..i] + timers[i + 1..], u) <==> u != timers[i].target && HasTimer(timers, u)
  {
    var r := timers[..i] + timers[i + 1..];
    if HasTimer(r, u) {
      var j :| 0 <= j < |r| && r[j].target == u;
      assert r[j] == if j < i then timers[j] else timers[j + 1];
    }
    if u != timers[i].target && HasTimer(timers, u) {
      var j :| 0 <= j < |timers| && timers[j].target == u;
      var k := if j < i then j else j - 1;
      assert r[k] == timers[j];
    }
  }

  /** Running a restoring timer keeps the invariant. */
  lemma FireRestorable(authored: seq<string>, b: Bars, i: nat)
    requires Restorable(authored, b) && i < |b.timers|
    ensures Restorable(authored, Fire(b, i))
  {
    var r := Fire(b, i);
    forall j | 0 <= j < |r.timers| ensures r.timers[j] == if j < i then b.timers[j] else b.timers[j + 1] {
    }
    forall u | 0 <= u < |r.widths| ensures r.widths[u] == if HasTimer(r.timers, u) then Zero else authored[u] {
      HasTimerRemove(b.timers, i, u);
    }
  }

  /** Once a bar has no pending timer its width is the authored one: the width it had just
      before it was triggered. While a timer is pending it is "0". */
  lemma WidthRestored(authored: seq<string>, b: Bars, t: nat)
    requires Restorable(authored, b) && t < |b.widths|
    ensures !HasTimer(b.timers, t) ==> b.widths[t] == authored[t]
    ensures HasTimer(b.timers, t) ==> b.widths[t] == Zero && t !in b.observed
  {
  }

  /** One shot: once a bar is no longer observed, no batch the browser can deliver from
      then on (one naming only bars still observed) changes its width or schedules a timer
      for it, and it stays unobserved. */
  lemma OnceOnly(b: Bars, later: seq<Entry>, t: nat)
    requires WellFormed(b) && t < |b.widths| && t !in b.observed
    requires Reports(later, b.observed)
    ensures Targets(later, |b.widths|)
    ensures AfterBatch(b, later).widths[t] == b.widths[t]
    ensures |AfterBatch(b, later).timers| >= |b.timers|
    ensures AfterBatch(b, later).timers[..|b.timers|] == b.timers
    ensures forall j :: |b.timers| <= j < |AfterBatch(b, later).timers| ==> AfterBatch(b, later).timers[j].target != t
    ensures HasTimer(AfterBatch(b, later).timers, t) <==> HasTimer(b.timers, t)
    ensures t !in AfterBatch(b, later).observed
  {
    forall i | 0 <= i < |later| ensures later[i].target < |b.widths| && later[i].target != t {
      assert later[i].target in b.observed;
    }
    assert t !in Triggered(later);
    BatchFrame(b, later, t);
    BatchUnobserves(b, later);
  }

  /** A batch that does not trigger t leaves t's width alone, keeps every pending timer,
      and appends none for t. */
  lemma {:induction false} BatchFrame(b: Bars, entries: seq<Entry>, t: nat)
    requires WellFormed(b) && Targets(entries, |b.widths|) && t < |b.widths|
    requires t !in Triggered(entries)
    ensures AfterBatch(b, entries).widths[t] == b.widths[t]
    ensures |AfterBatch(b, entries).timers| >= |b.timers|
    ensures AfterBatch(b, entries).timers[..|b.timers|] == b.timers
    ensures forall j :: |b.timers| <= j < |AfterBatch(b, entries).timers| ==> AfterBatch(b, entries).timers[j].target != t
    ensures HasTimer(AfterBatch(b, entries).timers, t) <==> HasTimer(b.timers, t)
    decreases |entries|
  {
    if entries != [] {
      var n := |entries| - 1;
      TriggeredStep(entries, n);
      assert entries[..n + 1] == entries;
      BatchFrame(b, entries[..n], t);
      var p := AfterBatch(b, entries[..n]);
      var r := AfterBatch(b, entries);
      if entries[n].isIntersecting {
        var u := entries[n].target;
        assert r.timers == p.timers + [Restore(u, RestoreDelayMs, p.widths[u])];
        assert r.timers[..|b.timers|] == p.timers[..|b.timers|];
        if HasTimer(p.timers, t) {
          var j :| 0 <= j < |p.timers| && p.timers[j].target == t;
          assert r.timers[j] == p.timers[j];
        }
        if HasTimer(r.timers, t) {
          var j :| 0 <= j < |r.timers| && r.timers[j].target == t;
          assert r.timers[j] == p.timers[j];
        }
      }
    }
  }

  /** A batch of two entries is the callback applied to each in turn. */
  lemma BatchOfTwo(b: Bars, e: Entry)
    requires WellFormed(b) && e.target < |b.widths|
    ensures AfterBatch(b, [e, e]) == React(React(b, e), e)
  {
    assert [e, e][..1] == [e] && [e][..0] == [];
    assert AfterBatch(b, [e]) == React(AfterBatch(b, []), e);
    assert AfterBatch(b, [e, e]) == React(AfterBatch(b, [e]), e);
  }

  /** Running the first of two timers appended after `kept` leaves `kept` and the second. */
  lemma FireAppended(r: Bars, kept: seq<Restore>, first: Restore, second: Restore)
    requires WellFormed(r) && r.timers == kept + [first, second]
    ensures Fire(r, |kept|).timers == kept + [second]
    ensures Fire(Fire(r, |kept|), |kept|).widths[second.target] == second.width
  {
    assert r.timers[..|kept|] == kept && r.timers[|kept| + 1..] == [second];
  }

  /** A batch reporting the same bar intersecting twice (an entry queued, the bar leaving
      and entering again before delivery) saves the collapsed width the second time: it
      appends a timer restoring the bar's width and then one restoring "0", so once both
      have run, in order, the bar stays at "0". */
  lemma TwiceReportedBarStaysCollapsed(b: Bars, t: nat)
    requires WellFormed(b) && t < |b.widths|
    ensures var r := AfterBatch(b, [Entry(t, true), Entry(t, true)]);
      && r.timers == b.timers + [Restore(t, RestoreDelayMs, b.widths[t]), Restore(t, RestoreDelayMs, Zero)]
      && r.widths[t] == Zero
      && Fire(Fire(r, |b.timers|), |b.timers|).widths[t] == Zero
  {
    var e := Entry(t, true);
    BatchOfTwo(b, e);
    ReactTwice(b, t);
  }

  /** The callback applied twice to the same intersecting entry. */
  lemma ReactTwice(b: Bars, t: nat)
    requires WellFormed(b) && t < |b.widths|
    ensures var r := React(React(b, Entry(t, true)), Entry(t, true));
      && r.timers == b.timers + [Restore(t, RestoreDelayMs, b.widths[t]), Restore(t, RestoreDelayMs, Zero)]
      && r.widths[t] == Zero
      && Fire(Fire(r, |b.timers|), |b.timers|).widths[t] == Zero
  {
    var b1 := React(b, Entry(t, true));
    var r := React(b1, Entry(t, true));
    assert r.timers == b.timers + [Restore(t, RestoreDelayMs, b.widths[t]), Restore(t, RestoreDelayMs, Zero)];
    FireAppended(r, b.timers, Restore(t, RestoreDelayMs, b.widths[t]), Restore(t, RestoreDelayMs, Zero));
  }

  /** The progress observer and its bars. */
  class ProgressObserver {
    const authored: seq<string>
    var widths: seq<string>
    var observed: set<nat>
    var timers: seq<Restore>

    function State(): Bars
      reads this
    {
      Bars(widths, observed, timers)
    }

    ghost predicate Valid()
      reads this
    {
      WellFormed(State()) && |widths| == |authored|
    }

    /** `progressBars.forEach(bar => progressObserver.observe(bar))`. */
    constructor (authored: seq<string>)
      ensures this.authored == authored
      ensures State() == Registered(authored)
      ensures Valid() && Restorable(authored, State())
    {
      var obs: set<nat> := {};
      for i := 0 to |authored|
        invariant obs == Upto(i)
      {
        obs := obs + {i};
      }
      this.authored := authored;
      widths, observed, timers := authored, obs, [];
      RegisteredRestorable(authored);
    }

    /** The observer's callback over one batch of entries. */
    method Deliver(entries: seq<Entry>)
      requires Valid() && Targets(entries, |widths|)
      modifies this
      ensures State() == AfterBatch(old(State()), entries)
      ensures Valid()
      ensures (Restorable(authored, old(State())) && Reports(entries, old(observed))
               && forall t :: Hits(entries, t) <= 1)
              ==> Restorable(authored, State())
    {
      for i := 0 to |entries|
        invariant Valid()
        invariant State() == AfterBatch(old(State()), entries[..i])
      {
        assert entries[..i + 1][..i] == entries[..i];
        var entry := entries[i];
        if entry.isIntersecting {
          var bar := entry.target;
          var width := widths[bar];
          widths := widths[bar := Zero];
          timers := timers + [Restore(bar, RestoreDelayMs, width)];
          observed := observed - {bar};
        }
      }
      assert entries[..|entries|] == entries;
      if Restorable(authored, old(State())) && Reports(entries, old(observed)) && (forall t :: Hits(entries, t) <= 1) {
        AfterBatchRestorable(authored, old(State()), entries);
      }
    }

    /** A pending restoring timer runs. Timers of one bar run in the order they were
        scheduled (they all have the same delay). */
    method RunTimer(i: nat)
      requires Valid() && i < |timers|
      requires forall j :: 0 <= j < i ==> timers[j].target != timers[i].target
      modifies this
      ensures State() == Fire(old(State()), i)
      ensures Valid()
      ensures Restorable(authored, old(State())) ==> Restorable(authored, State())
    {
      if Restorable(authored, State()) {
        FireRestorable(authored, State(), i);
      }
      var timer := timers[i];
      widths := widths[timer.target := timer.width];
      timers := timers[..i] + timers[i + 1..];
    }
  }
}

=== FILE: reveal.dfy ===
/** The one-shot reveal observers of script.js: cards (cardObserver), timeline items
    (timelineObserver), section headers (headerObserver) and organisation-chart nodes (one
    observer per node). Registration puts each element in its hidden state and observes it;
    the first intersecting entry for an element applies its shown state, at once or through
    a setTimeout with a stagger delay, and unobserves the element.

    Inline styles are opaque tokens. A scheduled setTimeout callback is a pending Timer; the
    caller decides when one runs, subject to the rule that the timers of one element run in
    the order they were scheduled. */
module Reveal {
  import opened Wrappers
  import opened Observation

  datatype Group = Cards | TimelineItems | SectionHeaders | OrgNodes

  /** The hidden transform an element starts from. */
  datatype Entrance =
    | Lowered    // cards: shifted down 30 px and scaled to 95 %
    | FromLeft   // section headers, and timeline items at even positions: shifted 50 px left
    | FromRight  // timeline items at odd positions: shifted 50 px right
    | Shrunk     // org nodes: scaled to 80 %

  /** An element's inline opacity and transform. */
  datatype Look =
    | Authored                 // no inline style yet: as the stylesheet draws it
    | Hidden(entrance: Entrance) // opacity 0 and the entrance transform
    | Shown                    // opacity 1 and the identity transform

  /** A section header's `.section-icon`, if it has one, and whether it has been turned. */
  datatype Icon = NoIcon | Icon(turned: bool)

  /** A setTimeout callback that has been scheduled and has not run yet. */
  datatype Timer = Timer(target: nat, delay: nat, look: Look)

  /** An observer's group as a value: every element's look and icon, the elements still
      observed, and the pending timers in scheduling order. */
  datatype Board = Board(looks: seq<Look>, icons: seq<Icon>, observed: set<nat>, timers: seq<Timer>)

  const CardStaggerMs: nat := 100
  const OrgStaggerMs: nat := 150

  /** The delay before a triggered element is shown: a card waits 100 ms per position of its
      entry in the batch, counting entries that do not intersect; an org node waits 150 ms
      per position in its group; the others are shown at once. */
  function Delay(group: Group, position: nat, target: nat): (d: nat)
    ensures group == Cards ==> d == position * CardStaggerMs
    ensures group == OrgNodes ==> d == target * OrgStaggerMs
    ensures !Deferred(group) ==> d == 0
  {
    match group
    case Cards => position * CardStaggerMs
    case OrgNodes => target * OrgStaggerMs
    case _ => 0
  }

  /** Groups whose shown state is applied through a setTimeout. */
  predicate Deferred(group: Group)
  {
    group == Cards || group == OrgNodes
  }

  predicate WellFormed(b: Board)
  {
    && |b.icons| == |b.looks|
    && (forall t :: t in b.observed ==> t < |b.looks|)
    && (forall j :: 0 <= j < |b.timers| ==> b.timers[j].target < |b.looks|)
  }

  /** The look element t is given by its last pending timer, if it has one. */
  function Pending(timers: seq<Timer>, t: nat): Option<Look>
    decreases |timers|
  {
    if timers == [] then None
    else if timers[|timers| - 1].target == t then Some(timers[|timers| - 1].look)
    else Pending(timers[..|timers| - 1], t)
  }

  /** The look element t will have once its pending timers have run. */
  function Eventual(b: Board, t: nat): Look
    requires t < |b.looks|
  {
    match Pending(b.timers, t)
    case Some(look) => look
    case None => b.looks[t]
  }

  /** The reveal invariant: an element still observed is not shown and has no timer that
      would show it; an element no longer observed is shown, or will be once its timers run;
      a header's icon has turned exactly when the header has been triggered. Only cards and
      org nodes have timers, and only section headers have icons. */
  ghost predicate Inv(group: Group, b: Board)
  {
    && WellFormed(b)
    && (!Deferred(group) ==> b.timers == [])
    && (group != SectionHeaders ==> forall t :: 0 <= t < |b.icons| ==> b.icons[t] == NoIcon)
    && (forall t :: t in b.observed ==> b.looks[t] != Shown)
    && (forall j :: 0 <= j < |b.timers| && b.timers[j].target in b.observed ==> b.timers[j].look != Shown)
    && (forall t :: 0 <= t < |b.looks| && t !in b.observed ==> Eventual(b, t) == Shown)
    && (forall t :: 0 <= t < |b.icons| ==> (b.icons[t] == Icon(true) <==> b.icons[t].Icon? && t !in b.observed))
  }

  /** The style registration gives the element at position i. Org nodes keep their authored
      style until a zero-delay timer hides them. */
  function InitialLook(group: Group, i: nat): (l: Look)
    ensures l != Shown
    ensures group == OrgNodes <==> l == Authored
    ensures group == TimelineItems ==> (l == Hidden(FromLeft) <==> i % 2 == 0)
  {
    match group
    case Cards => Hidden(Lowered)
    case TimelineItems => if i % 2 == 0 then Hidden(FromLeft) else Hidden(FromRight)
    case SectionHeaders => Hidden(FromLeft)
    case OrgNodes => Authored
  }

  function InitialIcon(group: Group, hasIcon: bool): Icon
  {
    if group == SectionHeaders && hasIcon then Icon(false) else NoIcon
  }

  /** The group right after registration; hasIcon[i] says whether element i holds a
      `.section-icon` (only section headers look for one). */
  function Registered(group: Group, hasIcon: seq<bool>): (r: Board)
    ensures WellFormed(r) && |r.looks| == |hasIcon|
    ensures forall t: int :: t in r.observed <==> 0 <= t < |hasIcon|
    ensures forall t :: 0 <= t < |r.looks| ==> r.looks[t] != Shown
    ensures forall t :: 0 <= t < |r.icons| ==> (r.icons[t].Icon? <==> group == SectionHeaders && hasIcon[t])
    ensures group == OrgNodes ==> |r.timers| == |hasIcon| && forall j :: 0 <= j < |r.timers| ==> r.timers[j] == Timer(j, 0, Hidden(Shrunk))
    ensures group != OrgNodes ==> r.timers == []
  {
    var n := |hasIcon|;
    Board(
      seq(n, i requires 0 <= i < n => InitialLook(group, i)),
      seq(n, i requires 0 <= i < n => InitialIcon(group, hasIcon[i])),
      Upto(n),
      if group == OrgNodes then seq(n, i requires 0 <= i < n => Timer(i, 0, Hidden(Shrunk))) else [])
  }

  /** What the callback does with the entry at the given position of its batch. */
  function React(group: Group, b: Board, e: Entry, position: nat): (r: Board)
    requires WellFormed(b) && e.target < |b.looks|
    ensures WellFormed(r) && |r.looks| == |b.looks|
  {
    if !e.isIntersecting then b
    else
      var t := e.target;
      var observed := b.observed - {t};
      match group
      case Cards => b.(observed := observed, timers := b.timers + [Timer(t, Delay(group, position, t), Shown)])
      case OrgNodes => b.(observed := observed, timers := b.timers + [Timer(t, Delay(group, position, t), Shown)])
      case TimelineItems => b.(observed := observed, looks := b.looks[t := Shown])
      case SectionHeaders =>
        b.(observed := observed, looks := b.looks[t := Shown],
           icons := if b.icons[t].Icon? then b.icons[t := Icon(true)] else b.icons)
  }

  /** The group after the callback has run over a whole batch, entry by entry. */
  function AfterBatch(group: Group, b: Board, entries: seq<Entry>): (r: Board)
    requires WellFormed(b) && Targets(entries, |b.looks|)
    ensures WellFormed(r) && |r.looks| == |b.looks|
    decreases |entries|
  {
    if entries == [] then b
    else
      var n := |entries| - 1;
      React(group, AfterBatch(group, b, entries[..n]), entries[n], n)
  }

  /** The group after pending timer i has run. */
  function Fire(b: Board, i: nat): (r: Board)
    requires WellFormed(b) && i < |b.timers|
    ensures WellFormed(r) && |r.looks| == |b.looks|
    ensures r.observed == b.observed && r.icons == b.icons
  {
    b.(looks := b.looks[b.timers[i].target := b.timers[i].look], timers := b.timers[..i] + b.timers[i + 1..])
  }

  lemma {:induction false} PendingNone(timers: seq<Timer>, t: nat)
    requires forall j :: 0 <= j < |timers| ==> timers[j].target != t
    ensures Pending(timers, t) == None
    decreases |timers|
  {
    if timers != [] {
      PendingNone(timers[..|timers| - 1], t);
    }
  }

  /** Removing the first pending timer of an element changes nothing about the look the
      element is heading for, and nothing about any other element's. */
  lemma {:induction false} PendingRemove(timers: seq<Timer>, i: nat, u: nat)
    requires i < |timers|
    requires forall j :: 0 <= j < i ==> timers[j].target != timers[i].target
    ensures u != timers[i].target ==> Pending(timers[..i] + timers[i + 1..], u) == Pending(timers, u)
    ensures u == timers[i].target ==>
      Pending(timers, u) == match Pending(timers[..i] + timers[i + 1..], u)
                            case Some(look) => Some(look)
                            case None => Some(timers[i].look)
    decreases |timers|
  {
    var rest := timers[..i] + timers[i + 1..];
    var n := |timers| - 1;
    if i == n {
      assert rest == timers[..n];
      if u == timers[i].target {
        PendingNone(timers[..n], u);
      }
    } else {
      var shorter := timers[..n];
      assert rest[..|rest| - 1] == shorter[..i] + shorter[i + 1..];
      assert rest[|rest| - 1] == timers[n];
      PendingRemove(shorter, i, u);
    }
  }

  /** Registration establishes the invariant and observes every element. */
  lemma RegisteredValid(group: Group, hasIcon: seq<bool>)
    ensures Inv(group, Registered(group, hasIcon))
    ensures Registered(group, hasIcon).observed == Upto(|hasIcon|)
  {
  }

  /** One entry keeps the invariant, whether or not its element is still observed. */
  lemma ReactValid(group: Group, b: Board, e: Entry, position: nat)
    requires Inv(group, b) && e.target < |b.looks|
    ensures Inv(group, React(group, b, e, position))
  {
    var r := React(group, b, e, position);
    if e.isIntersecting && Deferred(group) {
      var tm := Timer(e.target, Delay(group, position, e.target), Shown);
      assert r.timers == b.timers + [tm];
      assert r.timers[..|r.timers| - 1] == b.timers;
      forall u | 0 <= u < |r.looks| && u !in r.observed ensures Eventual(r, u) == Shown {
        if u != e.target {
          assert Pending(r.timers, u) == Pending(b.timers, u);
        }
      }
    }
  }

  /** A whole batch keeps the invariant. */
  lemma {:induction false} AfterBatchValid(group: Group, b: Board, entries: seq<Entry>)
    requires Inv(group, b) && Targets(entries, |b.looks|)
    ensures Inv(group, AfterBatch(group, b, entries))
    decreases |entries|
  {
    if entries != [] {
      var n := |entries| - 1;
      AfterBatchValid(group, b, entries[..n]);
      ReactValid(group, AfterBatch(group, b, entries[..n]), entries[n], n);
    }
  }

  /** Running a timer keeps the invariant, provided it is its element's first pending one. */
  lemma FireValid(group: Group, b: Board, i: nat)
    requires Inv(group, b) && i < |b.timers|
    requires forall j :: 0 <= j < i ==> b.timers[j].target != b.timers[i].target
    ensures Inv(group, Fire(b, i))
  {
    var r := Fire(b, i);
    forall u | 0 <= u < |r.looks| ensures Eventual(r, u) == Eventual(b, u) {
      PendingRemove(b.timers, i, u);
    }
    forall j | 0 <= j < |r.timers| && r.timers[j].target in r.observed ensures r.timers[j].look != Shown {
      assert r.timers[j] == if j < i then b.timers[j] else b.timers[j + 1];
    }
  }

  /** Every element whose entry intersects is unobserved; every other element keeps its
      observation. */
  lemma {:induction false} BatchUnobserves(group: Group, b: Board, entries: seq<Entry>)
    requires WellFormed(b) && Targets(entries, |b.looks|)
    ensures AfterBatch(group, b, entries).observed == b.observed - Triggered(entries)
    decreases |entries|
  {
    if entries != [] {
      var n := |entries| - 1;
      BatchUnobserves(group, b, entries[..n]);
      TriggeredStep(entries, n);
      assert entries[..n + 1] == entries;
    }
  }

  /** Timeline items and section headers are shown in the callback itself: after a batch an
      element is shown exactly when the batch triggered it or it was shown before, no timer
      is added, and a header's icon turns when the header is triggered. */
  lemma {:induction false} ImmediateReveal(group: Group, b: Board, entries: seq<Entry>)
    requires !Deferred(group)
    requires WellFormed(b) && Targets(entries, |b.looks|)
    ensures AfterBatch(group, b, entries).timers == b.timers
    ensures forall t :: 0 <= t < |b.looks| ==>
      AfterBatch(group, b, entries).looks[t] == if t in Triggered(entries) then Shown else b.looks[t]
    ensures forall t :: 0 <= t < |b.looks| ==>
      AfterBatch(group, b, entries).icons[t]
        == if group == SectionHeaders && t in Triggered(entries) && b.icons[t].Icon? then Icon(true) else b.icons[t]
    decreases |entries|
  {
    if entries != [] {
      var n := |entries| - 1;
      ImmediateReveal(group, b, entries[..n]);
      TriggeredStep(entries, n);
      assert entries[..n + 1] == entries;
    }
  }

  /** Cards and org nodes are shown through timers: a batch leaves looks and icons alone,
      keeps the timers already pending, and appends a timer for each intersecting entry, and
      only for those, carrying the group's stagger delay (how many per element: TimersPerHit). */
  lemma {:induction false} DeferredReveal(group: Group, b: Board, entries: seq<Entry>)
    requires Deferred(group)
    requires WellFormed(b) && Targets(entries, |b.looks|)
    ensures AfterBatch(group, b, entries).looks == b.looks
    ensures AfterBatch(group, b, entries).icons == b.icons
    ensures |AfterBatch(group, b, entries).timers| >= |b.timers|
    ensures AfterBatch(group, b, entries).timers[..|b.timers|] == b.timers
    ensures forall i :: 0 <= i < |entries| && entries[i].isIntersecting ==>
      Timer(entries[i].target, Delay(group, i, entries[i].target), Shown)
        in AfterBatch(group, b, entries).timers[|b.timers|..]
    ensures forall tm :: tm in AfterBatch(group, b, entries).timers[|b.timers|..] ==>
      exists i :: (0 <= i < |entries| && entries[i].isIntersecting
        && tm == Timer(entries[i].target, Delay(group, i, entries[i].target), Shown))
    decreases |entries|
  {
    if entries != [] {
      var n := |entries| - 1;
      var p := AfterBatch(group, b, entries[..n]);
      DeferredReveal(group, b, entries[..n]);
      var r := AfterBatch(group, b, entries);
      var added, added' := p.timers[|b.timers|..], r.timers[|b.timers|..];
      if entries[n].isIntersecting {
        assert added' == added + [Timer(entries[n].target, Delay(group, n, entries[n].target), Shown)];
      } else {
        assert added' == added;
      }
      forall i | 0 <= i < |entries| && entries[i].isIntersecting
        ensures Timer(entries[i].target, Delay(group, i, entries[i].target), Shown) in added'
      {
        if i < n {
          assert entries[..n][i] == entries[i];
        }
      }
      forall tm | tm in added'
        ensures exists i :: (0 <= i < |entries| && entries[i].isIntersecting
          && tm == Timer(entries[i].target, Delay(group, i, entries[i].target), Shown))
      {
        if tm in added {
          var i :| 0 <= i < n && entries[..n][i].isIntersecting
            && tm == Timer(entries[..n][i].target, Delay(group, i, entries[..n][i].target), Shown);
          assert entries[..n][i] == entries[i];
        }
      }
    }
  }

  /** How many pending timers an element has. */
  function TimersFor(timers: seq<Timer>, t: nat): nat
    decreases |timers|
  {
    if timers == [] then 0
    else TimersFor(timers[..|timers| - 1], t) + if timers[|timers| - 1].target == t then 1 else 0
  }

  /** A deferred group schedules, for each element, one timer per intersecting entry naming
      it: once per element when the batch reports it once, and never for an element the
      batch does not trigger. */
  lemma {:induction false} TimersPerHit(group: Group, b: Board, entries: seq<Entry>, t: nat)
    requires Deferred(group)
    requires WellFormed(b) && Targets(entries, |b.looks|)
    ensures TimersFor(AfterBatch(group, b, entries).timers, t) == TimersFor(b.timers, t) + Hits(entries, t)
    decreases |entries|
  {
    if entries != [] {
      var n := |entries| - 1;
      var p := AfterBatch(group, b, entries[..n]);
      TimersPerHit(group, b, entries[..n], t);
      if entries[n].isIntersecting {
        var r := AfterBatch(group, b, entries);
        assert r.timers[..|r.timers| - 1] == p.timers;
      }
    }
  }

  /** A batch that does not trigger t leaves t's look, icon and pending timers alone. */
  lemma {:induction false} BatchFrame(group: Group, b: Board, entries: seq<Entry>, t: nat)
    requires WellFormed(b) && Targets(entries, |b.looks|) && t < |b.looks|
    requires t !in Triggered(entries)
    ensures AfterBatch(group, b, entries).looks[t] == b.looks[t]
    ensures AfterBatch(group, b, entries).icons[t] == b.icons[t]
    ensures Pending(AfterBatch(group, b, entries).timers, t) == Pending(b.timers, t)
    ensures TimersFor(AfterBatch(group, b, entries).timers, t) == TimersFor(b.timers, t)
    decreases |entries|
  {
    if entries != [] {
      var n := |entries| - 1;
      TriggeredStep(entries, n);
      assert entries[..n + 1] == entries;
      BatchFrame(group, b, entries[..n], t);
      var p := AfterBatch(group, b, entries[..n]);
      var r := AfterBatch(group, b, entries);
      if entries[n].isIntersecting && Deferred(group) {
        assert r.timers[..|r.timers| - 1] == p.timers;
      }
    }
  }

  /** One shot: once an element is no longer observed (some earlier batch triggered it),
      no batch the browser can deliver from then on (one naming only elements still
      observed) changes its look or icon or schedules a timer for it, whatever visibility
      changes it reports, and the element stays unobserved. Timers do not touch the
      observed set (`Fire`), so this holds after any mix of later batches and timers. */
  lemma OnceOnly(group: Group, b: Board, later: seq<Entry>, t: nat)
    requires WellFormed(b) && t < |b.looks| && t !in b.observed
    requires Reports(later, b.observed)
    ensures Targets(later, |b.looks|)
    ensures AfterBatch(group, b, later).looks[t] == b.looks[t]
    ensures AfterBatch(group, b, later).icons[t] == b.icons[t]
    ensures Pending(AfterBatch(group, b, later).timers, t) == Pending(b.timers, t)
    ensures TimersFor(AfterBatch(group, b, later).timers, t) == TimersFor(b.timers, t)
    ensures t !in AfterBatch(group, b, later).observed
  {
    forall i | 0 <= i < |later| ensures later[i].target < |b.looks| && later[i].target != t {
      assert later[i].target in b.observed;
    }
    assert t !in Triggered(later);
    BatchFrame(group, b, later, t);
    BatchUnobserves(group, b, later);
  }

  /** Once an element that has been triggered has no pending timer left, it is shown. */
  lemma SettledShown(group: Group, b: Board, t: nat)
    requires Inv(group, b) && t < |b.looks| && t !in b.observed
    requires forall j :: 0 <= j < |b.timers| ==> b.timers[j].target != t
    ensures b.looks[t] == Shown
  {
    PendingNone(b.timers, t);
  }

  /** One reveal observer and the group of elements it was given at registration. */
  class RevealObserver {
    const group: Group
    var looks: seq<Look>
    var icons: seq<Icon>
    var observed: set<nat>
    var timers: seq<Timer>

    function State(): Board
      reads this
    {
      Board(looks, icons, observed, timers)
    }

    ghost predicate Valid()
      reads this
    {
      Inv(group, State())
    }

    /** The registration loop: give each element its hidden look (an org node's arrives
        through a zero-delay timer), prepare a header's icon, and observe it. */
    constructor (group: Group, hasIcon: seq<bool>)
      ensures this.group == group
      ensures State() == Registered(group, hasIcon)
      ensures Valid()
    {
      var n := |hasIcon|;
      var ls: seq<Look>, ics: seq<Icon>, obs: set<nat>, ts: seq<Timer> := [], [], {}, [];
      for i := 0 to n
        invariant |ls| == |ics| == i
        invariant forall k :: 0 <= k < i ==> ls[k] == InitialLook(group, k)
        invariant forall k :: 0 <= k < i ==> ics[k] == InitialIcon(group, hasIcon[k])
        invariant obs == Upto(i)
        invariant group == OrgNodes ==> |ts| == i && forall k :: 0 <= k < i ==> ts[k] == Timer(k, 0, Hidden(Shrunk))
        invariant group != OrgNodes ==> ts == []
      {
        if group == OrgNodes {
          ts := ts + [Timer(i, 0, Hidden(Shrunk))];
          ls := ls + [Authored];
        } else if group == TimelineItems {
          ls := ls + [if i % 2 == 0 then Hidden(FromLeft) else Hidden(FromRight)];
        } else if group == Cards {
          ls := ls + [Hidden(Lowered)];
        } else {
          ls := ls + [Hidden(FromLeft)];
        }
        ics := ics + [if group == SectionHeaders && hasIcon[i] then Icon(false) else NoIcon];
        obs := obs + {i};
      }
      this.group := group;
      looks, icons, observed, timers := ls, ics, obs, ts;
      RegisteredValid(group, hasIcon);
    }

    /** The observer's callback over one batch of entries. */
    method Deliver(entries: seq<Entry>)
      requires Valid() && Targets(entries, |looks|)
      modifies this
      ensures State() == AfterBatch(group, old(State()), entries)
      ensures Valid()
    {
      for i := 0 to |entries|
        invariant WellFormed(State()) && |looks| == |old(looks)|
        invariant State() == AfterBatch(group, old(State()), entries[..i])
      {
        assert entries[..i + 1][..i] == entries[..i];
        var entry := entries[i];
        if entry.isIntersecting {
          var t := entry.target;
          match group {
            case Cards =>
              timers := timers + [Timer(t, i * CardStaggerMs, Shown)];
            case OrgNodes =>
              timers := timers + [Timer(t, t * OrgStaggerMs, Shown)];
            case TimelineItems =>
              looks := looks[t := Shown];
            case SectionHeaders =>
              looks := looks[t := Shown];
              if icons[t].Icon? {
                icons := icons[t := Icon(true)];
              }
          }
          observed := observed - {t};
        }
      }
      assert entries[..|entries|] == entries;
      AfterBatchValid(group, old(State()), entries);
    }

    /** A pending timer runs: its element takes the look it carries. */
    method RunTimer(i: nat)
      requires Valid() && i < |timers|
      requires forall j :: 0 <= j < i ==> timers[j].target != timers[i].target
      modifies this
      ensures State() == Fire(old(State()), i)
      ensures Valid()
    {
      FireValid(group, State(), i);
      var timer := timers[i];
      looks := looks[timer.target := timer.look];
      timers := timers[..i] + timers[i + 1..];
    }
  }
}

=== FILE: scroll.dfy ===
/** The scroll-offset handlers of script.js: the back-to-top and print buttons are displayed
    when the page is scrolled more than 500 px, and the scroll indicator, when the page has
    one, fades out past 100 px. Inline styles are opaque tokens. */
module ScrollWidgets {

  const ButtonThreshold: real := 500.0
  const IndicatorThreshold: real := 100.0

  /** A button's inline `display`. */
  datatype Display = DisplayNone | DisplayFlex

  /** The scroll indicator's inline opacity and visibility. */
  datatype Indicator =
    | Untouched  // no inline style yet
    | Visible    // opacity 1, visible
    | Faded      // opacity 0, hidden

  /** The display both buttons' scroll handlers give them at offset scrollY. */
  function ButtonDisplay(scrollY: real): (d: Display)
    ensures d == DisplayFlex <==> scrollY > ButtonThreshold
  {
    if scrollY > ButtonThreshold then DisplayFlex else DisplayNone
  }

  /** The look the indicator's scroll handler gives it at offset scrollY. */
  function IndicatorLook(scrollY: real): (l: Indicator)
    ensures l != Untouched
    ensures l == Faded <==> scrollY > IndicatorThreshold
  {
    if scrollY > IndicatorThreshold then Faded else Visible
  }

  /** The two buttons createBackToTop and createPrintButton append, and the scroll indicator. */
  class Widgets {
    var backToTop: Display
    var backToTopFadesIn: bool  // its `animation` has been set to the fade-in
    var printButton: Display
    const hasIndicator: bool
    var indicator: Indicator

    /** Both buttons are created with `display: none`; the indicator keeps its stylesheet look. */
    constructor (hasIndicator: bool)
      ensures this.hasIndicator == hasIndicator
      ensures backToTop == DisplayNone && printButton == DisplayNone
      ensures !backToTopFadesIn && indicator == Untouched
    {
      this.hasIndicator := hasIndicator;
      backToTop, printButton := DisplayNone, DisplayNone;
      backToTopFadesIn, indicator := false, Untouched;
    }

    /** The back-to-top button's scroll handler. Its display depends on scrollY alone, so
        repeated events at one offset change nothing after the first; the fade-in
        animation, once set, is never cleared. */
    method OnScrollBackToTop(scrollY: real)
      modifies this`backToTop, this`backToTopFadesIn
      ensures backToTop == ButtonDisplay(scrollY)
      ensures backToTop == DisplayFlex <==> scrollY > 500.0
      ensures backToTopFadesIn == (old(backToTopFadesIn) || scrollY > 500.0)
    {
      if scrollY > ButtonThreshold {
        backToTop := DisplayFlex;
        backToTopFadesIn := true;
      } else {
        backToTop := DisplayNone;
      }
    }

    /** The print button's scroll handler. */
    method OnScrollPrint(scrollY: real)
      modifies this`printButton
      ensures printButton == ButtonDisplay(scrollY)
      ensures printButton == DisplayFlex <==> scrollY > 500.0
    {
      if scrollY > ButtonThreshold {
        printButton := DisplayFlex;
      } else {
        printButton := DisplayNone;
      }
    }

    /** The scroll indicator's handler, registered only when the page has an indicator. */
    method OnScrollIndicator(scrollY: real)
      modifies this`indicator
      ensures hasIndicator ==> indicator == IndicatorLook(scrollY)
      ensures hasIndicator ==> (indicator == Faded <==> scrollY > 100.0)
      ensures !hasIndicator ==> indicator == old(indicator)
    {
      if hasIndicator {
        if scrollY > IndicatorThreshold {
          indicator := Faded;
        } else {
          indicator := Visible;
        }
      }
    }
  }
}

=== FILE: stats.dfy ===
/** The statistic counters' observer (script.js, animateStats): on the first intersecting
    entry for a `.stat-number` element it reads the first run of digits in the element's text
    and, if there is one, animates the element from 0 to that number over 1500 ms; in every
    case it then unobserves the element. An animation is run to its last tick within the
    callback: the interval's interleaving with other events is not modelled. */
module Stats {
  import opened Wrappers
  import opened Observation
  import opened DigitRun
  import opened Counter

  /** The duration animateStats passes to animateNumber, in milliseconds. */
  const StatDurationMs: real := 1500.0

  /** The statistics as a value: each element's text and the elements still observed. */
  datatype Counters = Counters(texts: seq<string>, observed: set<nat>)

  predicate WellFormed(b: Counters)
  {
    forall t :: t in b.observed ==> t < |b.texts|
  }

  /** The text a statistic ends with once triggered: its own text with the first run of
      digits written back as the number it reads (leading zeros dropped), or the text
      unchanged when it holds no digit. It reads back as the same counter target. */
  function Settled(text: string): (r: string)
    ensures CounterTarget(r) == CounterTarget(text)
  {
    match CounterTarget(text)
    case Some(n) => RenderReadsBack(text, n); Render(text, n)
    case None => text
  }

  /** What the callback does with one entry, animation included. */
  function React(b: Counters, e: Entry): (r: Counters)
    requires WellFormed(b) && e.target < |b.texts|
    ensures WellFormed(r) && |r.texts| == |b.texts|
  {
    if !e.isIntersecting then b
    else Counters(b.texts[e.target := Settled(b.texts[e.target])], b.observed - {e.target})
  }

  /** The statistics after the callback has run over a whole batch, entry by entry. */
  function AfterBatch(b: Counters, entries: seq<Entry>): (r: Counters)
    requires WellFormed(b) && Targets(entries, |b.texts|)
    ensures WellFormed(r) && |r.texts| == |b.texts|
    decreases |entries|
  {
    if entries == [] then b
    else
      var n := |entries| - 1;
      React(AfterBatch(b, entries[..n]), entries[n])
  }

  /** Settling a settled text again changes nothing: an animation that ran twice ends
      where one ends. */
  lemma SettledIsStable(text: string)
    ensures Settled(Settled(text)) == Settled(text)
  {
    match CounterTarget(text)
    case None =>
    case Some(n) =>
      RenderOverwrites(text, n, n);
  }

  /** After a batch, a statistic shows its settled text exactly when the batch triggered it,
      however many of the batch's entries reported it, and keeps its text otherwise; the
      triggered statistics are unobserved, digits or not. */
  lemma {:induction false} BatchOutcome(b: Counters, entries: seq<Entry>)
    requires WellFormed(b) && Targets(entries, |b.texts|)
    ensures AfterBatch(b, entries).observed == b.observed - Triggered(entries)
    ensures forall t :: 0 <= t < |b.texts| ==>
      AfterBatch(b, entries).texts[t] == if t in Triggered(entries) then Settled(b.texts[t]) else b.texts[t]
    decreases |entries|
  {
    if entries != [] {
      var n := |entries| - 1;
      BatchOutcome(b, entries[..n]);
      TriggeredStep(entries, n);
      assert entries[..n + 1] == entries;
      if entries[n].isIntersecting {
        SettledIsStable(b.texts[entries[n].target]);
      }
    }
  }

  /** One shot: scrolling back to a statistic never restarts its counter. Once it is no
      longer observed, no batch the browser can deliver from then on (one naming only
      statistics still observed) changes its text, and it stays unobserved. */
  lemma OnceOnly(b: Counters, later: seq<Entry>, t: nat)
    requires WellFormed(b) && t < |b.texts| && t !in b.observed
    requires Reports(later, b.observed)
    ensures Targets(later, |b.texts|)
    ensures AfterBatch(b, later).texts[t] == b.texts[t]
    ensures t !in AfterBatch(b, later).observed
  {
    forall i | 0 <= i < |later| ensures later[i].target < |b.texts| && later[i].target != t {
      assert later[i].target in b.observed;
    }
    assert t !in Triggered(later);
    BatchOutcome(b, later);
  }

  /** animateStats' own call: from 0 to a positive target over 1500 ms takes 94 ticks of
      16 ms, the last of which shows the target. */
  lemma StatTicks(n: nat)
    requires n > 0
    ensures TickCount(0, n, StatDurationMs) == 94
  {
    assert StatDurationMs / TickMs == 93.75;
  }

  /** The observer animateStats creates, and its statistics. */
  class StatsObserver {
    var texts: seq<string>
    var observed: set<nat>

    function State(): Counters
      reads this
    {
      Counters(texts, observed)
    }

    ghost predicate Valid()
      reads this
    {
      WellFormed(State())
    }

    /** `statNumbers.forEach(stat => observer.observe(stat))`. */
    constructor (texts: seq<string>)
      ensures State() == Counters(texts, Upto(|texts|))
      ensures Valid()
    {
      var obs: set<nat> := {};
      for i := 0 to |texts|
        invariant obs == Upto(i)
      {
        obs := obs + {i};
      }
      this.texts, observed := texts, obs;
    }

    /** The observer's callback over one batch of entries. */
    method Deliver(entries: seq<Entry>)
      requires Valid() && Targets(entries, |texts|)
      modifies this
      ensures State() == AfterBatch(old(State()), entries)
      ensures Valid()
    {
      for i := 0 to |entries|
        invariant Valid() && |texts| == |old(texts)|
        invariant State() == AfterBatch(old(State()), entries[..i])
      {
        assert entries[..i + 1][..i] == entries[..i];
        var entry := entries[i];
        if entry.isIntersecting {
          var element := entry.target;
          var text := texts[element];
          match CounterTarget(text) {
            case Some(number) =>
              var frames, shown := AnimateNumber(text, 0, number, StatDurationMs);
              texts := texts[element := frames[|frames| - 1]];
            case None =>
          }
          observed := observed - {element};
        }
      }
      assert entries[..|entries|] == entries;
    }
  }
}

=== FILE: wrappers.dfy ===
/** The optional value used across the model: a regular-expression match that may be
    null, a section that may be absent. */
module Wrappers {
  datatype Option<+T> = None | Some(value: T)
}
